=== FILE: README.md ===
# Application intake and review — a Dafny model

This project models the logic of `server.js`, a small Express and discord.js
service. Applicants submit a form. The `/submit` handler computes their age
on a fixed reference date, 13 August 2025. If they are 13 or older, it posts
a notification with an Accept and a Deny button to a Discord channel. When
the send succeeds, it records the application in an in-memory registry,
`pendingApps`. The `interactionCreate` handler reacts to a button click. It
recovers the application id from the button identifier and looks the id up.
It then announces the decision, removes the entry and replaces the two
buttons with one disabled button labelled with the outcome.

Modules:

- `Wrappers` (`wrappers.dfy`): `Option`, which stands for JavaScript's
  `undefined` and for an unparseable date.
- `Eligibility` (`eligibility.dfy`): dates as year/month/day integers and the
  age rule. A reference definition states the age independently: the last
  birthday on or before the reference date.
- `Text` (`text.dfy`): `startsWith`, plus `split` on a one-character
  separator. `Join` is its proved inverse.
- `Decimal` (`decimal.dfy`): `Date.now().toString()` as the decimal text of a
  natural number. `ValueOf` is its proved inverse.
- `Controls` (`controls.dfy`): the `accept_<id>` and `deny_<id>` button
  identifiers, their parse, and the final disabled button.
- `Applications` (`applications.dfy`): the registry as `map<string, App>`, and
  the two handlers as state-transition functions `Submit` and `Review`. It
  also has runs of events handled one at a time, with lemmas about those runs.
- `Interleaving` (`interleaving.dfy`): the click handler split at its first
  `await`, as the source runs it (see Findings).

Points of the code's behaviour that the model keeps as they are:

- **Lookup and removal are separate.** The code does not make them one
  step. An awaited reply sits between them (server.js:116-139). See
  Findings.
- **Only `accept_` and `deny_` remove the entry.** A found identifier with
  neither prefix gets no reply and removes nothing. The message is still
  edited to a disabled "Accepted" button. `Review` models this path as
  `Silent`. The buttons the code creates never reach it.
- **A rejected platform call ends the process.** The click listener
  (server.js:110) is `async` and has no `catch`, and no error handler is
  registered. A rejected `interaction.reply` (server.js:118, 123, 133) or
  `message.edit` (server.js:156) is caught by nothing in server.js, and it
  ends the process; every pending entry is lost with it. `Review` takes the outcomes of the reply
  and the edit as inputs and reports a crash with an empty registry. In a
  run, the events after a crash are those of a restarted process.
- **An unparseable date of birth is not reported.** For a non-empty dob
  that does not parse, NaN makes `age >= 13` false, so the applicant is
  ineligible. An empty dob never gets that far: the embed cannot be built
  with an empty field value, and the submission fails as a whole.

## Model

| member | source | states |
|---|---|---|
| Eligibility.AgeOn | server.js:48-55 | The computed age is the number of the last birthday that falls on or before the reference date: that birthday has happened by the reference date and the next one has not. |
| Eligibility.AgeOf | server.js:50-55 | An unparseable birth date gives no age (NaN). A parsed date gives the whole-year age as characterised for `AgeOn`. |
| Eligibility.Eligible | server.js:57 | Eligible exactly when the date of birth parsed and is on or before 13 August 2012, the reference date minus 13 years. |
| Eligibility.AgeIsLastAnniversary | server.js:51-55 | For every n, the n-th birthday is on or before the reference date if and only if n is at most the computed age. |
| Eligibility.AgeFormula | server.js:51-55 | Age is the year difference, minus one exactly when the reference (month, day) comes lexicographically before the birth (month, day). |
| Eligibility.AgeMonotone | server.js:51-55 | A birth date on or before another never gives a smaller age. |
| Eligibility.EligibleDownwardClosed | server.js:57 | If a birth date is eligible, every earlier birth date is eligible too. |
| Eligibility.UnparseableIsIneligible | server.js:50-57 | An unparseable date of birth is ineligible; no fault is raised. |
| Eligibility.BoundaryExamples | server.js:48-57 | Born 2012-08-13: eligible. Born 2012-08-14: not eligible, age 12. Born 2012-08-12: eligible. |
| Text.Split | server.js:114 | `split('_')` gives at least one piece. No piece contains the separator. Joining the pieces with the separator gives back the input. |
| Text.SplitJoin | server.js:114 | Splitting the join of separator-free pieces gives back those pieces, so split and join are mutually inverse. |
| Text.SplitCount | server.js:114 | The number of pieces is one more than the number of separators in the input. |
| Decimal.ToDecimal | server.js:59 | The id is a non-empty string of decimal digits with no leading zero. |
| Decimal.ValueOfToDecimal | server.js:59 | The decimal text of a timestamp denotes that timestamp. |
| Decimal.ToDecimalInjective | server.js:59 | Distinct timestamps give distinct ids. |
| Decimal.DecimalIdHasNoUnderscore | server.js:59 | A decimal id contains no `_`. |
| Controls.GetButtons | server.js:30-42 | Two enabled buttons: Accept (green) with identifier `accept_<id>`, then Deny (red) with identifier `deny_<id>`. |
| Controls.ParseId | server.js:114 | Element 1 of the split exists exactly when the identifier contains `_`. When it exists, it contains no `_`. |
| Controls.ParseAction | server.js:122-132 | The action is Accept exactly when the identifier starts with `accept_`, and Deny exactly when it starts with `deny_`. |
| Controls.FinalButton | server.js:142-154 | The replacement button is disabled. It reads "Denied" and is red exactly for a `deny_` click. Otherwise it reads "Accepted" and is green. |
| Controls.ControlIdRoundTrip | server.js:114-122 | For an id without `_`, parsing `accept_<id>` or `deny_<id>` gives back both the action and the id. |
| Controls.ParseActionOfControlId | server.js:122-132 | The action tag of a button identifier is recovered by the `startsWith` tests, whatever the id. |
| Controls.ParseIdOfControlId | server.js:114 | For an arbitrary id, the parse gives back only the part of the id before its first `_`. |
| Controls.ControlIdFromParse | server.js:114-132 | Conversely, an identifier with exactly one `_` that parses to an action and an id is that action's button identifier for that id. |
| Controls.GetButtonsDecode | server.js:30-42 | Each button of a fresh notification decodes to its own action and the notification's id. |
| Applications.OrNotSpecified | server.js:70-71 | An absent or empty skills or why field is shown as "Not specified". Any non-empty value passes through unchanged. The result is never empty. |
| Applications.Submit | server.js:59-91 | The id is the decimal text of the timestamp. The submitter is acknowledged exactly when the embed builds. A notification goes out only when the embed builds, the applicant is eligible and the channel is found. It carries `GetButtons(id)`, the skills and why fields defaulted by `OrNotSpecified`, and the eligible flag. If the embed fails, the applicant is ineligible, the channel is missing or the send fails, the registry is unchanged. Otherwise the registry gains exactly `id ↦ {name, email, phone, role}` and every other entry is kept. |
| Applications.Review | server.js:110-157 | If the id is missing or not pending, the reply is "not found" and the registry is unchanged. If it is found with an action and the announcement resolves, the decision is announced for the stored application and the message is edited to `FinalButton`. Exactly that id is removed and all other entries are kept. If it is found without an action, nothing is removed and there is no reply, but the message is still edited to `FinalButton`. A rejected reply or edit ends the process: it is reported as a crash, the registry is empty, and nothing after the rejected call happens. |
| Applications.SubmitKeepsWellKeyed | server.js:59-90 | Submission keeps every registry key a decimal id. |
| Applications.ReviewKeepsWellKeyed | server.js:114-140 | A click keeps every registry key a decimal id. |
| Applications.RunKeepsWellKeyed | server.js:27 | Over any sequence of submissions and clicks, every registry key remains a decimal id. |
| Applications.SubmitSize | server.js:85-90 | The registry grows by one entry exactly when the embed builds, the channel is found, the applicant is eligible, the send succeeds and the id is fresh. A reused id (same millisecond) overwrites, and the size is unchanged. |
| Applications.SecondReviewNotFound | server.js:116-140 | After a decided click, any later click whose id parses the same (on either button) gets "not found". It changes nothing unless its own reply is rejected, which ends the process. |
| Applications.SubmitThenReview | server.js:85-140 | For each button of a successfully sent notification, a click announces that button's action for the inserted application. The disabled label matches the action. For a fresh id, the registry returns to its state before the submission. |
| Applications.Step | server.js:45-157 | One event handled to completion. An insertion comes from a submission and adds exactly its id. A decision comes from a click on a pending id. It removes exactly that id, or empties the registry when the final edit is rejected. A crash comes only from a click with a rejected call, and it empties the registry. An event with no effect leaves the registry as it was. |
| Applications.WellKeyedClickFinds | server.js:33-140 | In a registry keyed by decimal ids, a click on either button of any pending application finds it. When the calls resolve, the click announces that button's action for it and removes exactly that id. |
| Applications.Run | server.js:27 | Events handled one after another give one effect per event. Every id pending at the end was pending at the start or was inserted during the run. |
| Applications.StepAccounting | server.js:116-140 | One event decides an id only if it was pending, and inserts an id only by a successful eligible submission. |
| Applications.AtMostOneDecisionPerInsertion | server.js:116-140 | In a sequential run, decisions plus still-pending entries for an id never exceed insertions plus the initial entry. |
| Applications.ClicksDecideAtMostOnce | server.js:116-140 | In a sequential run of clicks only, each id is decided at most once. |
| Applications.NoInsertionsFromClicks | server.js:110-157 | Clicks never insert into the registry. |
| Interleaving.Lookup | server.js:114-120 | The handler continues past "not found" exactly when the parsed id is pending. It then holds that id's stored application. |
| Interleaving.Commit | server.js:122-140 | The part after the awaited reply removes the looked-up id when the identifier has an action. Otherwise it leaves the registry as it is, and it never adds or changes entries. |
| Interleaving.ReviewIsLookupThenCommit | server.js:114-156 | Without a crash, the one-step `Review` equals `Lookup` followed by `Commit`. It crashes exactly when a call it reaches is rejected. It announces exactly when the lookup succeeds, the identifier has an action and the reply resolves. It answers "not found" exactly when the lookup fails. |
| Interleaving.OverlappingClicks | server.js:116-139 | Both clicks look up before either removes, and both announcements resolve. Each click is decided exactly when its own lookup in the registry before either click succeeds and its identifier has an action. Each decision names that click's parsed id and action. The final registry only loses entries. |
| Interleaving.OverlappingClicksDecideTwice | server.js:116-139 | Suppose both lookups run before either removal. Then an Accept click and a Deny click on one pending id are both decided. |
| Interleaving.SequentialClicksDecideOnce | server.js:116-139 | Handled one after the other, the same two clicks decide the id once. The second gets "not found". |

## Left out

- Date parsing: `new Date(dob)` is taken as already parsed into year, month and day, or `None` when it does not parse. Time zones are left out too. `getFullYear`, `getMonth` and `getDate` read local time. The reference `'2025-08-13'` and a date-only `YYYY-MM-DD` dob parse as UTC midnight, so west of UTC both read as the day before. Other dob formats (`2012/08/13`, `Aug 13 2012`, `2012-08-13T00:00`) parse in local time, so west of UTC only the reference shifts, to 2025-08-12. Such a dob of 13 August 2012 then gets age 12, while the model says eligible. JavaScript's rollover of out-of-range days is also not modelled.
- The uniqueness of `Date.now()`: the clock is a `now: nat` parameter. The model only shows that distinct timestamps give distinct ids, and that a repeated id overwrites the pending entry.
- Express routing, static file serving and the HTML acknowledgment text (server.js:9-11, 95-106). The acknowledgment is sent whenever the embed builds, whatever the send does, and changes no state; `Submit` reports it as `acknowledged`.
- The discord.js client, login, environment configuration, embed title and field texts, colours and timestamp. These are calls into a library outside this model. The channel lookup and the send's outcome are boolean inputs. Of the embed, only the id, the defaulted optional fields, the eligibility flag and the buttons are kept.
- Reply texts: a reply is modelled as its kind (not found, announced or none). An announcement carries the reviewer and the stored application; the Accept text uses the application's email.
- Console logging (server.js:129, 138) and the `isButton` filter (server.js:111).
- The send is asynchronous, and the registry insert happens in its `then`. `Submit` treats the send and the insert as one step.
- Applications.Submit: the library's validation of embed fields (every field value must be a non-empty string of at most 1024 characters, server.js:61-82) is not modelled; `embedOk` stands for its verdict. When it fails, the handler throws before the channel lookup, Express answers with a server error, and nothing is sent or recorded.
- Applications.Review: each click is one atomic step. It states no single-decision guarantee for overlapping clicks; the source gives none (see Findings). A rejected platform call is modelled as an empty registry. Whether and when the process is restarted, and the messages whose buttons stay live after the restart, are not modelled.

## Findings

| source | as written | input that shows it | evidently intended | confidence | as-written member | corrected member |
|---|---|---|---|---|---|---|
| server.js:116-139 | `pendingApps.get` and `pendingApps.delete` are separated by `await interaction.reply(...)`. A second click on the same application can run its lookup in between and also find the entry. | One pending id; an Accept click and a Deny click whose handlers both reach line 116 before either reaches line 130/139. Both are announced, with opposite decisions. | A check and removal of one pending entry, taken as a single step, so that each application is decided once. | medium, not executed | Interleaving.OverlappingClicksDecideTwice | Applications.ClicksDecideAtMostOnce |

=== FILE: applications.dfy ===
/** The pending-applications registry shared by the two event handlers:
    a form submission (`/submit`) may add an entry, a button click
    (`interactionCreate`) may take one out. */
module Applications {
  import opened Wrappers
  import opened Eligibility
  import opened Decimal
  import opened Controls

  /** What the registry keeps of an application. */
  datatype App = App(name: string, email: string, phone: string, role: string)

  /** Pending applications by identifier. */
  type Registry = map<string, App>

  /** The form body.  `dob` is the already-parsed date of birth (`None`
      when it does not parse); `skills` and `why` may be absent. */
  datatype Submission = Submission(
    name: string, email: string, phone: string, dob: Option<Date>,
    location: string, role: string, skills: Option<string>, why: Option<string>)

  /** The part of the outgoing notification this model keeps: its footer
      identifier, the defaulted optional fields, the eligibility field and
      the two buttons. */
  datatype Notification = Notification(
    appId: string, skills: string, why: string, eligible: bool, controls: seq<Button>)

  /** What a submission did: the registry after it, the id it drew, the
      eligibility decision, the notification sent (if any), and whether the
      submitter got the acknowledgment page. */
  datatype SubmitOutcome = SubmitOutcome(
    pending: Registry, appId: string, eligible: bool, dispatched: Option<Notification>, acknowledged: bool)

  /** Reply to a click: a private "not found", a public announcement of the
      decision, an announcement the platform rejected, or nothing at all (a
      found id whose button identifier has neither prefix). */
  datatype Reply =
    | NotFound
    | Announced(appId: string, action: Action, reviewer: string, app: App)
    | AnnouncementRejected(appId: string, action: Action)
    | Silent

  /** Registry after the click, the reply, the replacement button the
      original message is edited to (if the handler gets that far), and
      whether an awaited platform call was rejected.  The listener is
      `async` with no `catch`, so a rejection is unhandled and ends the
      process, and the in-memory registry is lost with it. */
  datatype ReviewOutcome = ReviewOutcome(pending: Registry, reply: Reply, edit: Option<Button>, crashed: bool)

  const Placeholder: string := "Not specified"

  /** `value || 'Not specified'` for an optional text field. */
  function OrNotSpecified(value: Option<string>): (shown: string)
    ensures shown != ""
    ensures value.Some? && value.value != "" ==> shown == value.value
    ensures value.None? || value.value == "" ==> shown == Placeholder
  {
    match value
    case Some(v) => if v != "" then v else Placeholder
    case None => Placeholder
  }

  /** Every key of the registry is a decimal timestamp. */
  predicate WellKeyed(reg: Registry) {
    forall k :: k in reg ==> IsDecimalId(k)
  }

  /** The `/submit` handler.  `now` is `Date.now()`, `embedOk` whether the
      embed builder accepts the field values, `channelFound` whether the
      review channel is in the client's cache, `sendOk` whether the send
      resolved.  The embed is built for every submission, before the
      channel and eligibility test; when it throws, nothing is sent, nothing
      is recorded and the submitter gets a server error rather than the
      acknowledgment page.  Otherwise the notification is dispatched only
      for an eligible application and a known channel, and the registry
      gets its entry only once the send has succeeded. */
  function Submit(reg: Registry, sub: Submission, now: nat, embedOk: bool, channelFound: bool, sendOk: bool): (out: SubmitOutcome)
    ensures IsDecimalId(out.appId) && ValueOf(out.appId) == now
    ensures out.eligible == Eligible(sub.dob)
    ensures out.acknowledged == embedOk
    ensures out.dispatched.Some? <==> embedOk && channelFound && out.eligible
    ensures out.dispatched.Some? ==> out.dispatched.value.appId == out.appId
    ensures out.dispatched.Some? ==> out.dispatched.value.controls == GetButtons(out.appId)
    ensures out.dispatched.Some? ==>
      && out.dispatched.value.skills == OrNotSpecified(sub.skills)
      && out.dispatched.value.why == OrNotSpecified(sub.why)
      && out.dispatched.value.eligible
    ensures !(embedOk && channelFound && out.eligible && sendOk) ==> out.pending == reg
    ensures embedOk && channelFound && out.eligible && sendOk ==>
      && out.pending.Keys == reg.Keys + {out.appId}
      && out.pending[out.appId] == App(sub.name, sub.email, sub.phone, sub.role)
      && forall k :: k in reg && k != out.appId ==> out.pending[k] == reg[k]
  {
    ValueOfToDecimal(now);
    var eligible := Eligible(sub.dob);
    var appId := ToDecimal(now);
    var notification := Notification(appId, OrNotSpecified(sub.skills), OrNotSpecified(sub.why), eligible, GetButtons(appId));
    if !embedOk then
      SubmitOutcome(reg, appId, eligible, None, false)
    else if channelFound && eligible then
      var pending := if sendOk then reg[appId := App(sub.name, sub.email, sub.phone, sub.role)] else reg;
      SubmitOutcome(pending, appId, eligible, Some(notification), true)
    else
      SubmitOutcome(reg, appId, eligible, None, true)
  }

  /** The registry once an awaited platform call has settled: the handler
      goes on with `reg` when it resolved, and everything is lost when it
      was rejected. */
  function Settled(reg: Registry, ok: bool): Registry {
    if ok then reg else map[]
  }

  /** The `interactionCreate` handler for a button click.  `replyOk` is
      whether the awaited reply (the "not found" notice or the public
      announcement) resolves, `editOk` whether the awaited message edit
      does.  An id that does not parse or is not pending gets "not found"
      and nothing changes.  Otherwise an `accept_` or `deny_` click
      announces the decision, removes exactly that id, and replaces the
      message's buttons by one disabled button.  A found id with neither
      prefix removes nothing and replies nothing, yet still gets the
      disabled button.  A rejected call ends the process: the registry is
      lost and the rest of the handler never runs. */
  function Review(reg: Registry, customId: string, reviewer: string, replyOk: bool, editOk: bool): (out: ReviewOutcome)
    ensures out.crashed ==> out.pending == map[]
    ensures ParseId(customId).None? || ParseId(customId).value !in reg ==>
      && out.reply == NotFound && out.edit == None
      && out.crashed == !replyOk
      && (replyOk ==> out.pending == reg)
    ensures ParseId(customId).Some? && ParseId(customId).value in reg ==>
      var id := ParseId(customId).value;
      && (ParseAction(customId).Some? && replyOk ==>
            && out.reply == Announced(id, ParseAction(customId).value, reviewer, reg[id])
            && out.edit == Some(FinalButton(customId))
            && out.crashed == !editOk
            && (editOk ==>
                  && out.pending.Keys == reg.Keys - {id}
                  && (forall k :: k in out.pending ==> out.pending[k] == reg[k])))
      && (ParseAction(customId).Some? && !replyOk ==>
            out == ReviewOutcome(map[], AnnouncementRejected(id, ParseAction(customId).value), None, true))
      && (ParseAction(customId).None? ==>
            && out.reply == Silent && out.edit == Some(FinalButton(customId))
            && out.crashed == !editOk
            && (editOk ==> out.pending == reg))
  {
    match ParseId(customId)
    case None => ReviewOutcome(Settled(reg, replyOk), NotFound, None, !replyOk)
    case Some(id) =>
      if id !in reg then ReviewOutcome(Settled(reg, replyOk), NotFound, None, !replyOk)
      else
        var app := reg[id];
        match ParseAction(customId)
        case Some(action) =>
          if replyOk then
            ReviewOutcome(Settled(reg - {id}, editOk), Announced(id, action, reviewer, app), Some(FinalButton(customId)), !editOk)
          else
            ReviewOutcome(Settled(reg, false), AnnouncementRejected(id, action), None, true)
        case None => ReviewOutcome(Settled(reg, editOk), Silent, Some(FinalButton(customId)), !editOk)
  }

  /** Submissions keep the registry keyed by decimal timestamps. */
  lemma SubmitKeepsWellKeyed(reg: Registry, sub: Submission, now: nat, embedOk: bool, channelFound: bool, sendOk: bool)
    requires WellKeyed(reg)
    ensures WellKeyed(Submit(reg, sub, now, embedOk, channelFound, sendOk).pending)
  {
  }

  /** Clicks keep the registry keyed by decimal timestamps. */
  lemma ReviewKeepsWellKeyed(reg: Registry, customId: string, reviewer: string, replyOk: bool, editOk: bool)
    requires WellKeyed(reg)
    ensures WellKeyed(Review(reg, customId, reviewer, replyOk, editOk).pending)
  {
  }

  /** The registry grows by exactly one entry when a fresh id is inserted,
      and stays the same size otherwise: an id already pending (two
      submissions in the same millisecond) is overwritten. */
  lemma SubmitSize(reg: Registry, sub: Submission, now: nat, embedOk: bool, channelFound: bool, sendOk: bool)
    ensures var out := Submit(reg, sub, now, embedOk, channelFound, sendOk);
      |out.pending| == |reg| + (if embedOk && channelFound && out.eligible && sendOk && out.appId !in reg then 1 else 0)
  {
    var out := Submit(reg, sub, now, embedOk, channelFound, sendOk);
    if embedOk && channelFound && out.eligible && sendOk {
      if out.appId !in reg {
        assert out.pending.Keys == reg.Keys + {out.appId};
        assert |out.pending.Keys| == |reg.Keys| + 1;
      } else {
        assert out.pending.Keys == reg.Keys;
      }
    }
  }

  /** A second click on an application that has been decided — on either
      of its buttons — finds nothing, and changes nothing unless its own
      reply is rejected. */
  lemma SecondReviewNotFound(reg: Registry, first: string, second: string, r1: string, r2: string,
                             reply1: bool, edit1: bool, reply2: bool, edit2: bool)
    requires Review(reg, first, r1, reply1, edit1).reply.Announced?
    requires ParseId(second) == ParseId(first)
    ensures var after := Review(reg, first, r1, reply1, edit1).pending;
      Review(after, second, r2, reply2, edit2) == ReviewOutcome(Settled(after, reply2), NotFound, None, !reply2)
  {
  }

  /** Round trip through both handlers: each button of a notification whose
      send succeeded finds the inserted application, announces the button's
      action for it (when the announcement resolves), and leaves the
      registry as it was before the submission when the id was fresh. */
  lemma SubmitThenReview(reg: Registry, sub: Submission, now: nat, i: nat, reviewer: string)
    requires Submit(reg, sub, now, true, true, true).eligible
    requires i < 2
    ensures var s := Submit(reg, sub, now, true, true, true);
      var button := s.dispatched.value.controls[i];
      var r := Review(s.pending, button.customId, reviewer, true, true);
      && r.reply == Announced(s.appId, if i == 0 then Accept else Deny, reviewer, App(sub.name, sub.email, sub.phone, sub.role))
      && r.edit.Some? && r.edit.value.caption == (if i == 0 then "Accepted" else "Denied")
      && (s.appId !in reg ==> r.pending == reg)
  {
    var s := Submit(reg, sub, now, true, true, true);
    DecimalIdHasNoUnderscore(s.appId);
    GetButtonsDecode(s.appId);
    var r := Review(s.pending, s.dispatched.value.controls[i].customId, reviewer, true, true);
    if s.appId !in reg {
      assert r.pending == reg;
    }
  }

  /** In a registry keyed by decimal timestamps, a click on either button
      of any pending application finds it, and (when the platform calls
      resolve) decides it and removes exactly it. */
  lemma WellKeyedClickFinds(reg: Registry, k: string, a: Action, reviewer: string)
    requires WellKeyed(reg)
    requires k in reg
    ensures var out := Review(reg, ControlId(a, k), reviewer, true, true);
      && out.reply == Announced(k, a, reviewer, reg[k])
      && out.pending.Keys == reg.Keys - {k}
  {
    DecimalIdHasNoUnderscore(k);
    ControlIdRoundTrip(a, k);
  }

  /** One event of the running process.  The flags say whether the awaited
      platform calls of the handler resolve. */
  datatype Event =
    | Submitted(sub: Submission, now: nat, embedOk: bool, channelFound: bool, sendOk: bool)
    | Clicked(customId: string, reviewer: string, replyOk: bool, editOk: bool)

  /** What an event did to the registry, as seen from outside.  `Crashed`
      is a rejected platform call that ended the process with nothing
      decided; the events after it are those of a restarted process, which
      starts with an empty registry. */
  datatype Effect = Inserted(appId: string) | Decided(appId: string, action: Action) | Crashed | NoEffect

  datatype StepResult = StepResult(pending: Registry, effect: Effect)

  datatype RunResult = RunResult(pending: Registry, log: seq<Effect>)

  /** One event handled to completion: an insertion adds exactly its id; a
      decision takes out its id, which was pending, either alone or, when
      the final edit is rejected, with the rest of the registry; a crash
      comes only from a rejected call and empties the registry; an event
      with no effect leaves the registry as it was. */
  function Step(reg: Registry, e: Event): (r: StepResult)
    ensures r.effect.Inserted? ==> e.Submitted? && r.pending.Keys == reg.Keys + {r.effect.appId}
    ensures r.effect.Decided? ==>
      && e.Clicked? && r.effect.appId in reg
      && (r.pending.Keys == reg.Keys - {r.effect.appId} || r.pending == map[])
    ensures r.effect.Crashed? ==> e.Clicked? && !(e.replyOk && e.editOk) && r.pending == map[]
    ensures r.effect.NoEffect? ==> r.pending == reg
  {
    match e
    case Submitted(sub, now, embedOk, channelFound, sendOk) =>
      var out := Submit(reg, sub, now, embedOk, channelFound, sendOk);
      StepResult(out.pending, if embedOk && channelFound && out.eligible && sendOk then Inserted(out.appId) else NoEffect)
    case Clicked(customId, reviewer, replyOk, editOk) =>
      var out := Review(reg, customId, reviewer, replyOk, editOk);
      var effect :=
        if out.reply.Announced? then Decided(out.reply.appId, out.reply.action)
        else if out.crashed then Crashed
        else NoEffect;
      StepResult(out.pending, effect)
  }

  /** Events handled one after another, each to completion: one effect
      per event, and every id pending at the end was pending at the start
      or was inserted along the way. */
  function Run(reg: Registry, events: seq<Event>): (r: RunResult)
    ensures |r.log| == |events|
    ensures forall k :: k in r.pending ==> k in reg || Inserted(k) in r.log
    decreases |events|
  {
    if |events| == 0 then RunResult(reg, [])
    else
      var step := Step(reg, events[0]);
      var rest := Run(step.pending, events[1..]);
      RunResult(rest.pending, [step.effect] + rest.log)
  }

  /** Over any run, the registry stays keyed by decimal timestamps. */
  lemma {:induction false} RunKeepsWellKeyed(reg: Registry, events: seq<Event>)
    requires WellKeyed(reg)
    ensures WellKeyed(Run(reg, events).pending)
    decreases |events|
  {
    if |events| > 0 {
      var next := Step(reg, events[0]).pending;
      match events[0] {
        case Submitted(sub, now, embedOk, channelFound, sendOk) =>
          SubmitKeepsWellKeyed(reg, sub, now, embedOk, channelFound, sendOk);
        case Clicked(customId, reviewer, replyOk, editOk) =>
          ReviewKeepsWellKeyed(reg, customId, reviewer, replyOk, editOk);
      }
      RunKeepsWellKeyed(next, events[1..]);
    }
  }

  /** A run of two events is the two steps in order. */
  lemma RunPair(reg: Registry, e1: Event, e2: Event)
    ensures var s1 := Step(reg, e1);
      var s2 := Step(s1.pending, e2);
      Run(reg, [e1, e2]) == RunResult(s2.pending, [s1.effect, s2.effect])
  {
    var s1 := Step(reg, e1);
    var s2 := Step(s1.pending, e2);
    var events := [e1, e2];
    assert events[1..] == [e2];
    assert [e2][1..] == [];
    assert Run(s2.pending, []) == RunResult(s2.pending, []);
    assert [s2.effect] + [] == [s2.effect];
    assert Run(s1.pending, [e2]) == RunResult(s2.pending, [s2.effect]);
    assert [s1.effect] + [s2.effect] == [s1.effect, s2.effect];
  }

  function Insertions(log: seq<Effect>, id: string): nat {
    if |log| == 0 then 0 else (if log[0] == Inserted(id) then 1 else 0) + Insertions(log[1..], id)
  }

  function Decisions(log: seq<Effect>, id: string): nat {
    if |log| == 0 then 0 else (if log[0].Decided? && log[0].appId == id then 1 else 0) + Decisions(log[1..], id)
  }

  function Pending(reg: Registry, id: string): nat {
    if id in reg then 1 else 0
  }

  lemma StepAccounting(reg: Registry, e: Event, id: string)
    ensures var r := Step(reg, e);
      (if r.effect.Decided? && r.effect.appId == id then 1 else 0) + Pending(r.pending, id)
      <= (if r.effect == Inserted(id) then 1 else 0) + Pending(reg, id)
  {
  }

  /** Handled sequentially, an application is decided at most once per time
      it was inserted: decisions plus what is still pending never exceed
      insertions plus what was pending at the start. */
  lemma {:induction false} AtMostOneDecisionPerInsertion(reg: Registry, events: seq<Event>, id: string)
    ensures var r := Run(reg, events);
      Decisions(r.log, id) + Pending(r.pending, id) <= Insertions(r.log, id) + Pending(reg, id)
    decreases |events|
  {
    if |events| > 0 {
      var step := Step(reg, events[0]);
      var rest := Run(step.pending, events[1..]);
      StepAccounting(reg, events[0], id);
      AtMostOneDecisionPerInsertion(step.pending, events[1..], id);
      assert ([step.effect] + rest.log)[1..] == rest.log;
    }
  }

  /** With only clicks, each application is decided at most once. */
  lemma ClicksDecideAtMostOnce(reg: Registry, events: seq<Event>, id: string)
    requires forall i :: 0 <= i < |events| ==> events[i].Clicked?
    ensures Decisions(Run(reg, events).log, id) <= 1
  {
    AtMostOneDecisionPerInsertion(reg, events, id);
    NoInsertionsFromClicks(reg, events, id);
  }

  lemma {:induction false} NoInsertionsFromClicks(reg: Registry, events: seq<Event>, id: string)
    requires forall i :: 0 <= i < |events| ==> events[i].Clicked?
    ensures Insertions(Run(reg, events).log, id) == 0
    decreases |events|
  {
    if |events| > 0 {
      var step := Step(reg, events[0]);
      var rest := Run(step.pending, events[1..]);
      assert step.effect != Inserted(id);
      NoInsertionsFromClicks(step.pending, events[1..], id);
      assert ([step.effect] + rest.log)[1..] == rest.log;
    }
  }
}

=== FILE: controls.dfy ===
/** The two review buttons attached to a notification, the parse of a
    clicked button's identifier, and the disabled button that replaces
    them once a decision is made. */
module Controls {
  import opened Wrappers
  import opened Text

  datatype Action = Accept | Deny

  datatype Style = Success | Danger

  datatype Button = Button(customId: string, caption: string, style: Style, disabled: bool)

  const Separator: char := '_'

  /** Action tag and separator at the head of a button identifier. */
  function Prefix(a: Action): string {
    match a
    case Accept => "accept_"
    case Deny => "deny_"
  }

  /** Button identifier `accept_<id>` or `deny_<id>`. */
  function ControlId(a: Action, appId: string): string {
    Prefix(a) + appId
  }

  /** The two active buttons of a fresh notification, Accept first. */
  function GetButtons(appId: string): (row: seq<Button>)
    ensures |row| == 2
    ensures row[0].customId == ControlId(Accept, appId) && row[0].style == Success
    ensures row[1].customId == ControlId(Deny, appId) && row[1].style == Danger
    ensures forall i :: 0 <= i < |row| ==> !row[i].disabled
  {
    [ Button(ControlId(Accept, appId), "✅ Accept", Success, false),
      Button(ControlId(Deny, appId), "❌ Deny", Danger, false) ]
  }

  /** `customId.split('_')[1]`: the second piece, or `None` where
      JavaScript would give `undefined` because there is no `_`. */
  function ParseId(customId: string): (id: Option<string>)
    ensures id.Some? <==> Separator in customId
    ensures id.Some? ==> Separator !in id.value
  {
    var parts := Split(customId, Separator);
    SplitCount(customId, Separator);
    if Separator in customId then
      assert Occurrences(customId, Separator) >= 1 by { OccurrencesPositive(customId, Separator); }
      Some(parts[1])
    else
      OccurrencesAbsent(customId, Separator);
      None
  }

  /** The action the handler takes: `accept_` is tested first, then `deny_`;
      any other identifier has no action. */
  function ParseAction(customId: string): (a: Option<Action>)
    ensures a == Some(Accept) <==> StartsWith(customId, Prefix(Accept))
    ensures a == Some(Deny) <==> StartsWith(customId, Prefix(Deny))
  {
    if StartsWith(customId, "accept_") then
      assert customId[0] == customId[..7][0] == 'a';
      Some(Accept)
    else if StartsWith(customId, "deny_") then Some(Deny)
    else None
  }

  /** The single disabled button left after a decision.  It starts as a
      green "Accepted" button; the `accept_` branch sets the same label
      again and the `deny_` branch relabels it "Denied" and turns it red. */
  function FinalButton(customId: string): (b: Button)
    ensures b.disabled
    ensures b.caption == "Denied" <==> ParseAction(customId) == Some(Deny)
    ensures b.caption == "Accepted" <==> ParseAction(customId) != Some(Deny)
    ensures b.style == Danger <==> b.caption == "Denied"
  {
    var initial := Button("accepted", "Accepted", Success, true);
    var afterAccept := if StartsWith(customId, "accept_") then initial.(caption := "Accepted") else initial;
    if StartsWith(customId, "deny_") then afterAccept.(caption := "Denied", style := Danger) else afterAccept
  }

  /** Encoding then decoding a button identifier gives back the action and,
      when it has no `_` (a decimal timestamp has none), the identifier. */
  lemma ControlIdRoundTrip(a: Action, appId: string)
    requires Separator !in appId
    ensures ParseAction(ControlId(a, appId)) == Some(a)
    ensures ParseId(ControlId(a, appId)) == Some(appId)
  {
    ParseIdOfControlId(a, appId);
    assert Split(appId, Separator) == [appId];
  }

  lemma ParseActionOfControlId(a: Action, appId: string)
    ensures ParseAction(ControlId(a, appId)) == Some(a)
  {
    var c := ControlId(a, appId);
    assert c[..|Prefix(a)|] == Prefix(a);
    if a == Deny {
      assert c[0] == 'd';
      assert !StartsWith(c, "accept_");
    }
  }

  /** For an arbitrary identifier, only its part before the first `_`
      survives the parse. */
  lemma {:induction false} ParseIdOfControlId(a: Action, appId: string)
    ensures ParseAction(ControlId(a, appId)) == Some(a)
    ensures ParseId(ControlId(a, appId)) == Some(Split(appId, Separator)[0])
  {
    ParseActionOfControlId(a, appId);
    var tag := Prefix(a)[..|Prefix(a)| - 1];
    var parts := [tag] + Split(appId, Separator);
    assert parts[1..] == Split(appId, Separator);
    assert Join(parts, Separator) == ControlId(a, appId);
    assert SeparatorFree(parts, Separator) by {
      assert Separator !in tag by {
        match a
        case Accept => assert tag == "accept";
        case Deny => assert tag == "deny";
      }
    }
    SplitJoin(parts, Separator);
  }

  /** Conversely, an identifier with exactly one `_` that parses to an
      action and an id is the button identifier of that action and id. */
  lemma ControlIdFromParse(customId: string, a: Action, appId: string)
    requires Occurrences(customId, Separator) == 1
    requires ParseAction(customId) == Some(a)
    requires ParseId(customId) == Some(appId)
    ensures ControlId(a, appId) == customId
  {
    var parts := Split(customId, Separator);
    SplitCount(customId, Separator);
    assert |parts| == 2;
    var p := Prefix(a);
    var tag := p[..|p| - 1];
    assert Separator !in tag by {
      match a
      case Accept => assert tag == "accept";
      case Deny => assert tag == "deny";
    }
    assert customId == parts[0] + [Separator] + parts[1];
    assert customId[..|p|] == p;
    assert customId[|tag|] == Separator;
    assert parts[0] == tag;
    assert customId == p + parts[1];
  }

  /** Each button of a fresh notification decodes to its own action and the
      notification's id. */
  lemma GetButtonsDecode(appId: string)
    requires Separator !in appId
    ensures ParseId(GetButtons(appId)[0].customId) == Some(appId)
    ensures ParseAction(GetButtons(appId)[0].customId) == Some(Accept)
    ensures ParseId(GetButtons(appId)[1].customId) == Some(appId)
    ensures ParseAction(GetButtons(appId)[1].customId) == Some(Deny)
  {
    ControlIdRoundTrip(Accept, appId);
    ControlIdRoundTrip(Deny, appId);
  }
}

=== FILE: decimal.dfy ===
/** Application identifiers: `Date.now().toString()`, the decimal text of
    a non-negative millisecond count. */
module Decimal {

  predicate IsDigit(c: char) {
    '0' <= c <= '9'
  }

  /** A non-empty string of decimal digits. */
  predicate IsDecimalId(s: string) {
    |s| >= 1 && forall i :: 0 <= i < |s| ==> IsDigit(s[i])
  }

  function DigitChar(d: nat): (c: char)
    requires d < 10
    ensures IsDigit(c)
  {
    "0123456789"[d]
  }

  /** Numeric value of a string of digits; the reference against which
      `ToDecimal` is checked. */
  function ValueOf(s: string): nat
    requires forall i :: 0 <= i < |s| ==> IsDigit(s[i])
  {
    if |s| == 0 then 0
    else
      assert IsDigit(s[|s| - 1]);
      10 * ValueOf(s[..|s| - 1]) + (s[|s| - 1] as int - '0' as int)
  }

  /** `n.toString()` for a non-negative integer: its decimal digits,
      most significant first, without leading zeros. */
  function ToDecimal(n: nat): (s: string)
    ensures IsDecimalId(s)
    ensures |s| > 1 ==> s[0] != '0'
    decreases n
  {
    if n < 10 then [DigitChar(n)] else ToDecimal(n / 10) + [DigitChar(n % 10)]
  }

  /** The decimal text denotes the number it was made from. */
  lemma {:induction false} ValueOfToDecimal(n: nat)
    ensures ValueOf(ToDecimal(n)) == n
    decreases n
  {
    var s := ToDecimal(n);
    if n >= 10 {
      assert s[..|s| - 1] == ToDecimal(n / 10);
      ValueOfToDecimal(n / 10);
    }
  }

  /** Distinct timestamps give distinct identifiers. */
  lemma ToDecimalInjective(m: nat, n: nat)
    requires ToDecimal(m) == ToDecimal(n)
    ensures m == n
  {
    ValueOfToDecimal(m);
    ValueOfToDecimal(n);
  }

  /** A decimal identifier never contains the `_` that separates the
      action from the identifier in a control. */
  lemma DecimalIdHasNoUnderscore(s: string)
    requires IsDecimalId(s)
    ensures '_' !in s
  {
  }
}

=== FILE: eligibility.dfy ===
/** The age and eligibility rule of the `/submit` handler: age in whole
    years on a fixed reference date, eligible from thirteen on. */
module Eligibility {
  import opened Wrappers

  /** A calendar date as the three integers the handler reads from a
      parsed date.  Months are numbered from 1; only differences of months
      are ever used, so JavaScript's 0-based `getMonth` gives the same result. */
  datatype Date = Date(year: int, month: int, day: int)

  /** The fixed reference date, 13 August 2025. */
  const Reference: Date := Date(2025, 8, 13)

  /** Minimum age, in whole years, for an application to be forwarded. */
  const MinimumAge: int := 13

  /** `a` is a strictly earlier date than `b` (lexicographic on year, month, day). */
  predicate Precedes(a: Date, b: Date) {
    || a.year < b.year
    || (a.year == b.year && a.month < b.month)
    || (a.year == b.year && a.month == b.month && a.day < b.day)
  }

  predicate OnOrBefore(a: Date, b: Date) {
    !Precedes(b, a)
  }

  /** The `n`-th birthday of someone born on `birth`. */
  function Anniversary(birth: Date, n: int): Date {
    Date(birth.year + n, birth.month, birth.day)
  }

  /** The latest birth date that is still old enough on the reference date. */
  function LatestEligibleBirth(): Date {
    Date(Reference.year - MinimumAge, Reference.month, Reference.day)
  }

  /** Whole years between `birth` and `ref`, computed as the handler does:
      the difference of years, less one when the reference month and day
      come before the birth month and day.  The contract states the
      meaning: the `age`-th birthday has happened by `ref`, the next has not. */
  function AgeOn(ref: Date, birth: Date): (age: int)
    ensures OnOrBefore(Anniversary(birth, age), ref)
    ensures Precedes(ref, Anniversary(birth, age + 1))
  {
    var age := ref.year - birth.year;
    var monthDiff := ref.month - birth.month;
    if monthDiff < 0 || (monthDiff == 0 && ref.day < birth.day) then age - 1 else age
  }

  /** Age of a possibly unparseable date of birth on the reference date;
      `None` stands for JavaScript's NaN. */
  function AgeOf(dob: Option<Date>): (age: Option<int>)
    ensures age.Some? <==> dob.Some?
    ensures dob.Some? ==> OnOrBefore(Anniversary(dob.value, age.value), Reference)
    ensures dob.Some? ==> Precedes(Reference, Anniversary(dob.value, age.value + 1))
  {
    match dob
    case None => None
    case Some(d) => Some(AgeOn(Reference, d))
  }

  /** `age >= 13`, where every comparison with NaN is false. */
  function Eligible(dob: Option<Date>): (ok: bool)
    ensures ok <==> dob.Some? && OnOrBefore(dob.value, LatestEligibleBirth())
  {
    match AgeOf(dob)
    case None => false
    case Some(age) => age >= MinimumAge
  }

  /** Age is the greatest `n` whose `n`-th birthday is on or before the
      reference date. */
  lemma {:induction false} AgeIsLastAnniversary(ref: Date, birth: Date, n: int)
    ensures OnOrBefore(Anniversary(birth, n), ref) <==> n <= AgeOn(ref, birth)
  {
    var age := AgeOn(ref, birth);
    if n <= age {
      AnniversaryMonotone(birth, n, age);
      OnOrBeforeTransitive(Anniversary(birth, n), Anniversary(birth, age), ref);
    } else {
      AnniversaryMonotone(birth, age + 1, n);
      assert OnOrBefore(Anniversary(birth, age + 1), Anniversary(birth, n));
      assert Precedes(ref, Anniversary(birth, age + 1));
    }
  }

  lemma AnniversaryMonotone(birth: Date, n: int, m: int)
    requires n <= m
    ensures OnOrBefore(Anniversary(birth, n), Anniversary(birth, m))
  {
  }

  lemma OnOrBeforeTransitive(a: Date, b: Date, c: Date)
    requires OnOrBefore(a, b) && OnOrBefore(b, c)
    ensures OnOrBefore(a, c)
  {
  }

  /** Age is the difference of years, less one exactly when the reference
      (month, day) comes lexicographically before the birth (month, day). */
  lemma AgeFormula(ref: Date, birth: Date)
    ensures AgeOn(ref, birth) ==
      ref.year - birth.year
      - (if Precedes(Date(0, ref.month, ref.day), Date(0, birth.month, birth.day)) then 1 else 0)
  {
  }

  /** Someone born earlier is never younger. */
  lemma {:induction false} AgeMonotone(ref: Date, older: Date, younger: Date)
    requires OnOrBefore(older, younger)
    ensures AgeOn(ref, older) >= AgeOn(ref, younger)
  {
    var a := AgeOn(ref, younger);
    // the younger person's a-th birthday is on or before ref,
    // and the older person's comes no later
    assert OnOrBefore(Anniversary(older, a), Anniversary(younger, a));
    OnOrBeforeTransitive(Anniversary(older, a), Anniversary(younger, a), ref);
    AgeIsLastAnniversary(ref, older, a);
  }

  /** Eligibility is downward closed: an earlier birth date of an eligible
      applicant is eligible too. */
  lemma EligibleDownwardClosed(older: Date, younger: Date)
    requires OnOrBefore(older, younger)
    requires Eligible(Some(younger))
    ensures Eligible(Some(older))
  {
    AgeMonotone(Reference, older, younger);
  }

  /** An unparseable date of birth is ineligible rather than a fault. */
  lemma UnparseableIsIneligible(dob: Option<Date>)
    requires dob.None?
    ensures !Eligible(dob)
  {
  }

  /** The three boundary cases around the reference date. */
  lemma BoundaryExamples()
    ensures Eligible(Some(Date(2012, 8, 13)))
    ensures !Eligible(Some(Date(2012, 8, 14)))
    ensures Eligible(Some(Date(2012, 8, 12)))
    ensures AgeOf(Some(Date(2012, 8, 14))) == Some(12)
  {
    assert AgeOn(Reference, Date(2012, 8, 13)) == 13;
    assert AgeOn(Reference, Date(2012, 8, 14)) == 12;
    assert AgeOn(Reference, Date(2012, 8, 12)) == 13;
  }
}

=== FILE: interleaving.dfy ===
/** The click handler as the source writes it: the registry lookup and the
    removal are separated by the awaited reply, so a second click can be
    handled in between.  `Applications.Review` is the same handler with
    lookup and removal taken as one step. */
module Interleaving {
  import opened Wrappers
  import opened Controls
  import opened Applications

  /** Everything up to the first `await`: parse the id and look it up.
      The handler continues past the reply only when this is `Some`. */
  function Lookup(reg: Registry, customId: string): (found: Option<(string, App)>)
    ensures found.Some? <==> ParseId(customId).Some? && ParseId(customId).value in reg
    ensures found.Some? ==> found.value.0 == ParseId(customId).value && found.value.1 == reg[found.value.0]
  {
    match ParseId(customId)
    case None => None
    case Some(id) => if id in reg then Some((id, reg[id])) else None
  }

  /** Everything after the awaited reply: delete the id looked up earlier
      when the button identifier carries an action. */
  function Commit(reg: Registry, customId: string, id: string): (next: Registry)
    ensures ParseAction(customId).Some? ==> next.Keys == reg.Keys - {id}
    ensures ParseAction(customId).None? ==> next == reg
    ensures forall k :: k in next ==> k in reg && next[k] == reg[k]
  {
    if ParseAction(customId).Some? then reg - {id} else reg
  }

  /** The one-step handler is the lookup followed, once the awaited calls
      have resolved, by the removal. */
  lemma ReviewIsLookupThenCommit(reg: Registry, customId: string, reviewer: string, replyOk: bool, editOk: bool)
    ensures var l := Lookup(reg, customId);
      var out := Review(reg, customId, reviewer, replyOk, editOk);
      && (!out.crashed ==> out.pending == (if l.Some? then Commit(reg, customId, l.value.0) else reg))
      && (out.crashed <==>
            if l.None? then !replyOk
            else if ParseAction(customId).Some? then !(replyOk && editOk)
            else !editOk)
      && (out.reply.Announced? <==> l.Some? && ParseAction(customId).Some? && replyOk)
      && (out.reply.NotFound? <==> l.None?)
  {
  }

  /** Two clicks whose lookups both run before either removal, with both
      announcements resolving: each click is decided exactly when its own
      lookup in the registry as it was before either click succeeded, and
      the registry ends with at most those entries removed. */
  function OverlappingClicks(reg: Registry, first: string, second: string): (out: RunResult)
    ensures |out.log| == 2
    ensures out.log[0].Decided? <==> Lookup(reg, first).Some? && ParseAction(first).Some?
    ensures out.log[1].Decided? <==> Lookup(reg, second).Some? && ParseAction(second).Some?
    ensures out.log[0].Decided? ==> out.log[0] == Decided(ParseId(first).value, ParseAction(first).value)
    ensures out.log[1].Decided? ==> out.log[1] == Decided(ParseId(second).value, ParseAction(second).value)
    ensures forall k :: k in out.pending ==> k in reg && out.pending[k] == reg[k]
  {
    var l1 := Lookup(reg, first);
    var l2 := Lookup(reg, second);
    var e1 := if l1.Some? && ParseAction(first).Some? then Decided(l1.value.0, ParseAction(first).value) else NoEffect;
    var e2 := if l2.Some? && ParseAction(second).Some? then Decided(l2.value.0, ParseAction(second).value) else NoEffect;
    var r1 := if l1.Some? then Commit(reg, first, l1.value.0) else reg;
    var r2 := if l2.Some? then Commit(r1, second, l2.value.0) else r1;
    RunResult(r2, [e1, e2])
  }

  /** As written, overlapping Accept and Deny clicks on one pending
      application both take effect: the application is decided twice, once
      each way. */
  lemma OverlappingClicksDecideTwice(id: string, app: App)
    requires Separator !in id
    ensures var out := OverlappingClicks(map[id := app], ControlId(Accept, id), ControlId(Deny, id));
      && out.log == [Decided(id, Accept), Decided(id, Deny)]
      && Decisions(out.log, id) == 2
      && id !in out.pending
  {
    var reg := map[id := app];
    var c1, c2 := ControlId(Accept, id), ControlId(Deny, id);
    ControlIdRoundTrip(Accept, id);
    ControlIdRoundTrip(Deny, id);
    assert Lookup(reg, c1) == Some((id, app));
    assert Lookup(reg, c2) == Some((id, app));
    var r1 := Commit(reg, c1, id);
    assert id !in Commit(r1, c2, id);
    var log := [Decided(id, Accept), Decided(id, Deny)];
    assert OverlappingClicks(reg, c1, c2).log == log;
    DecisionsOfPair(log, id);
  }

  lemma DecisionsOfPair(log: seq<Effect>, id: string)
    requires |log| == 2
    ensures Decisions(log, id) ==
      (if log[0].Decided? && log[0].appId == id then 1 else 0) + (if log[1].Decided? && log[1].appId == id then 1 else 0)
  {
    assert log[1..][1..] == [];
    assert Decisions(log[1..], id) == (if log[1].Decided? && log[1].appId == id then 1 else 0) + Decisions(log[1..][1..], id);
  }

  /** The same two clicks handled one after the other, with lookup and
      removal as one step, decide the application once. */
  lemma SequentialClicksDecideOnce(id: string, app: App, r1: string, r2: string)
    requires Separator !in id
    ensures var out := Run(map[id := app], [Clicked(ControlId(Accept, id), r1, true, true), Clicked(ControlId(Deny, id), r2, true, true)]);
      && out.log == [Decided(id, Accept), NoEffect]
      && Decisions(out.log, id) == 1
      && id !in out.pending
  {
    var reg := map[id := app];
    var c1, c2 := ControlId(Accept, id), ControlId(Deny, id);
    ControlIdRoundTrip(Accept, id);
    ControlIdRoundTrip(Deny, id);
    var first := Review(reg, c1, r1, true, true);
    assert first.reply == Announced(id, Accept, r1, app);
    assert id !in first.pending;
    var second := Review(first.pending, c2, r2, true, true);
    assert second.reply == NotFound;
    assert Step(reg, Clicked(c1, r1, true, true)) == StepResult(first.pending, Decided(id, Accept));
    assert Step(first.pending, Clicked(c2, r2, true, true)) == StepResult(first.pending, NoEffect);
    RunPair(reg, Clicked(c1, r1, true, true), Clicked(c2, r2, true, true));
    DecisionsOfPair([Decided(id, Accept), NoEffect], id);
  }
}

=== FILE: text.dfy ===
/** The two JavaScript string operations the review handler relies on:
    `String.prototype.startsWith` and `String.prototype.split` with a
    one-character separator. */
module Text {

  /** `s.startsWith(prefix)`. */
  predicate StartsWith(s: string, prefix: string) {
    |prefix| <= |s| && s[..|prefix|] == prefix
  }

  /** Position of the first `c` in `s`. */
  function FirstIndex(s: string, c: char): (i: nat)
    requires c in s
    ensures i < |s| && s[i] == c
    ensures c !in s[..i]
  {
    if s[0] == c then 0
    else
      assert c in s[1..];
      var j := FirstIndex(s[1..], c);
      assert s[..j + 1] == [s[0]] + s[1..][..j];
      j + 1
  }

  /** Pieces joined back together with `sep` between consecutive ones;
      the inverse of `Split`. */
  function Join(parts: seq<string>, sep: char): string
    requires |parts| >= 1
  {
    if |parts| == 1 then parts[0] else parts[0] + [sep] + Join(parts[1..], sep)
  }

  /** No piece contains the separator. */
  predicate SeparatorFree(parts: seq<string>, sep: char) {
    forall i :: 0 <= i < |parts| ==> sep !in parts[i]
  }

  /** `s.split(sep)`: the maximal separator-free pieces between occurrences
      of `sep`, empty ones included, so there is always at least one piece
      and joining them back gives `s`. */
  function Split(s: string, sep: char): (parts: seq<string>)
    ensures |parts| >= 1
    ensures SeparatorFree(parts, sep)
    ensures Join(parts, sep) == s
    decreases |s|
  {
    if sep !in s then [s]
    else
      var i := FirstIndex(s, sep);
      var rest := Split(s[i + 1..], sep);
      var parts := [s[..i]] + rest;
      assert parts[1..] == rest;
      assert s == s[..i] + [sep] + s[i + 1..];
      parts
  }

  /** Splitting a join of separator-free pieces gives the pieces back, so
      `Split` and `Join` are mutually inverse. */
  lemma {:induction false} SplitJoin(parts: seq<string>, sep: char)
    requires |parts| >= 1
    requires SeparatorFree(parts, sep)
    ensures Split(Join(parts, sep), sep) == parts
    decreases |parts|
  {
    if |parts| == 1 {
      assert sep !in parts[0];
    } else {
      var p := parts[0];
      var tail := Join(parts[1..], sep);
      var s := p + [sep] + tail;
      assert s[|p|] == sep;
      var i := FirstIndex(s, sep);
      if i < |p| {
        assert false;
      }
      if i > |p| {
        assert false;
      }
      assert s[..i] == p;
      assert s[i + 1..] == tail;
      SplitJoin(parts[1..], sep);
      assert parts == [p] + parts[1..];
    }
  }

  /** The number of pieces is one more than the number of separators. */
  function Occurrences(s: string, c: char): nat {
    if |s| == 0 then 0 else (if s[0] == c then 1 else 0) + Occurrences(s[1..], c)
  }

  lemma {:induction false} OccurrencesAppend(a: string, b: string, c: char)
    ensures Occurrences(a + b, c) == Occurrences(a, c) + Occurrences(b, c)
    decreases |a|
  {
    if |a| == 0 {
      assert a + b == b;
    } else {
      assert (a + b)[1..] == a[1..] + b;
      OccurrencesAppend(a[1..], b, c);
    }
  }

  lemma {:induction false} OccurrencesAbsent(s: string, c: char)
    requires c !in s
    ensures Occurrences(s, c) == 0
    decreases |s|
  {
    if |s| > 0 {
      assert c !in s[1..];
      OccurrencesAbsent(s[1..], c);
    }
  }

  lemma {:induction false} OccurrencesPositive(s: string, c: char)
    requires c in s
    ensures Occurrences(s, c) >= 1
    decreases |s|
  {
    if s[0] != c {
      assert c in s[1..];
      OccurrencesPositive(s[1..], c);
    }
  }

  lemma {:induction false} SplitCount(s: string, sep: char)
    ensures |Split(s, sep)| == Occurrences(s, sep) + 1
    decreases |s|
  {
    if sep !in s {
      OccurrencesAbsent(s, sep);
    } else {
      var i := FirstIndex(s, sep);
      assert s == s[..i] + ([sep] + s[i + 1..]);
      OccurrencesAppend(s[..i], [sep] + s[i + 1..], sep);
      OccurrencesAppend([sep], s[i + 1..], sep);
      OccurrencesAbsent(s[..i], sep);
      assert Occurrences([sep], sep) == 1 by {
        assert [sep][1..] == [];
      }
      SplitCount(s[i + 1..], sep);
    }
  }
}

=== FILE: wrappers.dfy ===
/** The optional-value datatype shared by the other modules. */
module Wrappers {

  /** A value that may be missing: JavaScript's `undefined` or an
      unparseable input. */
  datatype Option<+T> = None | Some(value: T)
}
